=== FILE: README.md ===
# AI Meeting Summarizer: a Dafny model of its request handling

The application lets a user paste or upload a meeting transcript, ask a language
model for a structured summary, edit it, and email it. This project models the
three pieces that carry logic:

- `POST /api/summarize` (`summarize_route.dfy`, module `SummarizeRoute`): body
  parsing, the `OPENAI_API_KEY` check, the transcript check, the construction of
  the chat request (system message, then a user message holding the instruction,
  the transcript between `"""` markers and a fixed four-item request), and the
  trimmed first choice as the summary.
- `POST /api/send-email` (`send_email_route.dfy`, module `SendEmailRoute`): body
  parsing, the `RESEND_API_KEY` / `EMAIL_FROM` check, the recipient and summary
  checks, and the one email sent with a fixed subject.
- The page (`page.dfy`, module `Page`): the state
  `{transcript, customPrompt, summary, emailTo, loading}` and its steps, which are
  file load, generate, send, clear and the four text-field edits. The two button
  predicates are modelled too.

`js.dfy` (module `Js`) holds the JavaScript semantics these rely on. That means
falsiness of body fields, `err instanceof Error ? err.message : fallback`,
`String.prototype.trim` over ECMAScript's exact white-space set, and the decimal
rendering of a status code. `server.dfy` (module `Server`) holds the environment,
the parsed body and the response shape. `pipeline.dfy` (module `Pipeline`)
connects the page with the two handlers.

Every handler is a pure function of the environment, the parsed body and the
provider's outcome. The provider's outcome is a parameter: choices or a thrown
value for the chat completion, and a resolved result or a thrown value for the
email. The handler returns its response together with the provider requests it
made. Each page action is one atomic step, and the server's reply is an input to
that step.

Behaviour worth noting:

- Both handlers parse the request body before they check the configuration. A
  body that cannot be parsed is therefore reported with the parse error's message
  (status 500), even when the key is missing. For a readable body, the
  configuration check comes before the field checks.
- The triple quotes around the transcript do not delimit it unambiguously. A
  transcript that contains the opening marker gives the same user message as a
  different instruction with a shorter transcript (`DelimiterCanBeForged`).
- In the send-email handler, `recipient?.trim()` only short-circuits on null or
  undefined. A falsy value that is not a string (`0`, `false`) throws a
  `TypeError`, which gives status 500, not 400. The summarize handler's
  `!transcript` gives 400 for the same values.
- A truthy prompt that is not a string is rendered by the template literal. A
  JSON object whose `toString` member is not a function cannot be rendered: the
  `TypeError` gives status 500, and no chat request is made.
- A successful summarize response may carry an empty `summary` (no choice, or no
  content) with status 200.
- The send-email handler never inspects what `resend.emails.send` resolves with.
  An error reported in that result still yields `{ ok: true }`
  (`ReportedErrorIgnored`).

## Model

| member | source | states |
|---|---|---|
| Js.TrimStart | app/api/summarize/route.ts:20 | the leading part `trim` removes: what remains is a suffix, everything dropped is white space, and what remains does not start with white space |
| Js.TrimEnd | app/api/summarize/route.ts:20 | the same for the trailing end: a prefix remains, everything dropped is white space, and the rest does not end with white space |
| Js.Trim | app/api/summarize/route.ts:49 | `trim` returns the middle of a split of the string into white space, a part with no white space at either end, and white space |
| Js.TrimUnique | app/api/summarize/route.ts:49 | any such split has `Trim`'s result as its middle, so trimming is determined by the white-space set |
| Js.BlankIffTrimEmpty | app/api/summarize/route.ts:20 | `!s.trim()` holds exactly when every character of `s` is white space |
| Js.TrimIdempotent | app/api/summarize/route.ts:49 | trimming an already trimmed string changes nothing |
| Js.TrimBounds | app/api/summarize/route.ts:20 | scanning inwards from both ends for the first non-white-space character finds exactly the bounds of `Trim` |
| Js.DecimalString | app/page.tsx:46 | a rendered status is a non-empty run of decimal digits without a leading zero |
| Js.DecimalRoundTrip | app/page.tsx:46 | reading the rendered digits back gives the status |
| SummarizeRoute.CheckTranscript | app/api/summarize/route.ts:20-25 | a transcript passes exactly when it is a non-blank string, and then as given; a falsy value or a blank string is a 400; a truthy non-string throws "transcript.trim is not a function", which gives a 500 |
| SummarizeRoute.FirstChoiceSummary | app/api/summarize/route.ts:49 | the summary is the trimmed content of the first choice; it is `""` exactly when there is no first choice, it has no content, or its content is blank, and otherwise it neither starts nor ends with white space |
| SummarizeRoute.Handle | app/api/summarize/route.ts:7-55 | every response is a success or a 400/500 error; a parse failure gives 500 with its message or "Failed to summarize"; then a missing key gives 500 "OPENAI_API_KEY not configured"; then a falsy or blank transcript gives 400 "Transcript is required", and a truthy non-string one gives 500 "transcript.trim is not a function"; then a prompt that cannot be rendered gives 500 "Cannot convert object to primitive value"; exactly one chat request is made exactly when the key is present, the transcript is non-blank and the prompt renders; that request is the fixed system message plus the user message; a thrown provider error gives 500; a completed call gives 200 with the first-choice summary |
| SummarizeRoute.Instruction | app/api/summarize/route.ts:42 | definition of the instruction interpolated from `prompt`, or "Summarize in clear bullet points." when it is falsy, characterised by `SummarizeRoute.InstructionChoice` |
| SummarizeRoute.UserMessage | app/api/summarize/route.ts:42-44 | definition of the user message, characterised by `SummarizeRoute.QuotedTranscriptIff` and `SummarizeRoute.DelimiterCanBeForged` |
| SummarizeRoute.QuotedTranscriptIff | app/api/summarize/route.ts:42-44 | reading the quoted transcript out of a message recovers exactly the transcript the message was built from, in both directions |
| SummarizeRoute.RequestCarriesTranscript | app/api/summarize/route.ts:29-47 | any request made has two messages, the fixed system message first, and the user message quotes the transcript verbatim and untrimmed |
| SummarizeRoute.UserMessageStartsWithInstruction | app/api/summarize/route.ts:42 | the user message begins with its instruction |
| SummarizeRoute.InstructionChoice | app/api/summarize/route.ts:42 | for a missing, null, empty or falsy prompt the user message is the one built from "Summarize in clear bullet points."; for a non-empty string prompt it is the one built from that prompt unchanged; another truthy prompt leads to a request exactly when it renders, and then its rendered text is the instruction the user message is built from |
| SummarizeRoute.KeyCheckedBeforeTranscript | app/api/summarize/route.ts:14-25 | with the key missing, the answer depends neither on the transcript, the prompt nor the provider |
| SummarizeRoute.BlankTranscriptRejected | app/api/summarize/route.ts:20-25 | with the key present, a missing or white-space-only transcript gives 400 "Transcript is required" and no request |
| SummarizeRoute.CompletedIsSuccess | app/api/summarize/route.ts:49-50 | once the request is made, a completed call always answers 200 with a trimmed summary, which is empty when there is no choice or content |
| SummarizeRoute.DelimiterCanBeForged | app/api/summarize/route.ts:42-44 | a transcript containing the opening marker yields the same user message as a longer instruction with a shorter transcript |
| SendEmailRoute.Required | app/api/send-email/route.ts:20 | `x?.trim()` is truthy exactly for a non-blank string, which is kept untrimmed; null or undefined is missing; any other non-string throws |
| SendEmailRoute.Handle | app/api/send-email/route.ts:7-40 | every response is `{ ok: true }` or a 400/500 error; a parse failure gives 500 with its message or "Failed to send email"; then a missing key or sender gives 500 "RESEND_API_KEY or EMAIL_FROM not configured"; exactly one email is sent exactly when the configuration is present and both fields are non-blank strings; it goes from `EMAIL_FROM` to the recipient as given, with subject "AI-Generated Meeting Summary" and the summary unmodified as its text; success holds exactly when that send does not throw, and a thrown send gives 500 with its message or "Failed to send email"; a non-string recipient, or a non-blank recipient with a non-string summary, gives 500 with the `TypeError`'s message |
| SendEmailRoute.BlankFieldRejected | app/api/send-email/route.ts:20-25 | with the configuration present, a missing or white-space-only recipient (whatever the summary), or a non-blank recipient with a missing or white-space-only summary, gives 400 "recipient and summary are required" and no email |
| SendEmailRoute.ConfigCheckedBeforeFields | app/api/send-email/route.ts:14-25 | with the key or the sender missing, the answer does not depend on the body's fields or on the mail service |
| SendEmailRoute.ReportedErrorIgnored | app/api/send-email/route.ts:28-35 | the value the send resolves with is never inspected: the answer is `{ ok: true }` whatever it reports |
| Page.LoadFile | app/page.tsx:15-31 | no file changes nothing; a non-empty type other than `text/plain` is refused with an alert and the transcript kept; an empty type is accepted; a read file replaces the transcript only; a read error alerts "Failed to read the file." and changes nothing; nothing else in the state changes |
| Page.SettleGenerate | app/page.tsx:44-56 | once the reply is in, `loading` is false whatever happened, and only `summary` and `loading` may change |
| Page.Generate | app/page.tsx:33-57 | a blank transcript changes nothing and sends nothing; otherwise one request carries the transcript and the custom prompt; the summary becomes the reply's `summary` (or `""`) on success and stays cleared on failure, with exactly one alert; `loading` ends false; the other fields are untouched |
| Page.Send | app/page.tsx:59-78 | a blank summary or recipient sends nothing; otherwise one request carries the recipient and the summary unchanged, and one alert is shown: "Email sent." for an ok reply, else the server's error, "Request failed: <status>", or the thrown message; the state never changes |
| Page.Clear | app/page.tsx:130-133 | transcript and summary become empty; the prompt, the recipient and `loading` are untouched |
| Page.Step | app/page.tsx:35-56 | a step taken while not loading leaves the page not loading |
| Page.NeverLoadingBetweenSteps | app/page.tsx:35-56 | after any sequence of atomic steps from a settled state, the page is settled |
| Page.SettledFromInitial | app/page.tsx:7-12 | the page starts with both buttons disabled and is not loading after any sequence of actions from there |
| Page.InFlightDisablesGenerate | app/page.tsx:141 | while a summary request is outstanding, the summary is cleared and Generate is disabled |
| Page.GenerateButtonMatchesGuard | app/page.tsx:141 | in a settled state, Generate is enabled exactly when clicking it sends a request; a disabled click changes nothing |
| Page.GenerateEnabled | app/page.tsx:141 | definition of the Generate button's enabled state, characterised by `Page.GenerateButtonMatchesGuard` |
| Page.SendEnabled | app/page.tsx:176 | definition of the Send button's enabled state, characterised by `Page.SendButtonMatchesGuard` |
| Page.SendButtonMatchesGuard | app/page.tsx:176 | Send is enabled exactly when clicking it sends a request |
| Page.StatusInFailureMessage | app/page.tsx:46 | the fallback message is "Request failed: " followed by digits that read back as the status |
| Page.OkReplyConfirmed | app/page.tsx:68-73 | an enabled send whose reply has any 2xx status shows "Email sent.", whatever the reply's body |
| Page.NotOkMessage | app/page.tsx:44-46 | the message for a reply that is not ok is never empty: an empty or missing `error` falls back to "Request failed: <status>"; its two cases are stated by `Page.FailureMessageShown` |
| Page.FailureMessageShown | app/page.tsx:44-47 | a failed generate alerts the server's `error` when it is a non-empty string, and "Request failed: <status>" otherwise |
| Pipeline.SummarizePageRequest | app/page.tsx:38-42 | a summarize request the page sends makes the handler issue one chat request for the page's prompt and transcript, and answer 500 with the thrown message or 200 with the first-choice summary |
| Pipeline.PageSummarizeRequestAccepted | app/page.tsx:38-42 | a request the page sends is never refused as blank; the handler makes one chat request quoting the page's transcript unchanged, after the custom prompt or, for an empty prompt, the default instruction |
| Pipeline.PageSendRequestDelivered | app/page.tsx:60-66 | a request the page sends is never refused as blank; the handler emails the page's summary unchanged to the page's recipient unchanged, and a send that does not throw ends in "Email sent." |
| Pipeline.SuccessStored | app/page.tsx:49-50 | a successful summarize reply is stored in the page exactly as received |
| Pipeline.SummaryReachesEmailBody | app/api/send-email/route.ts:28-33 | the summary the summarize handler returns, stored by the page and sent unedited, is the email body character for character |
| Pipeline.MissingKeyShownToUser | app/api/summarize/route.ts:14-19 | with the key missing, the page alerts "OPENAI_API_KEY not configured", with an empty summary and `loading` false |
| Pipeline.EmptyProviderMessageShownAsStatus | app/page.tsx:44-47 | a provider error with an empty message reaches the user as "Request failed: 500", not as an empty alert |

## Left out

- The OpenAI and Resend SDK calls and the network are not modelled. Their outcomes are parameters, and the request or email is recorded as a value.
- The model name, `temperature: 0.3` and `max_tokens: 700` are recorded as constants only. The temperature is stored in tenths, and no floating point is modelled.
- `NextResponse.json` and the page's `res.json()` are modelled as a direct mapping of the `summary` and `error` members (`Pipeline.SummarizeReply`, `Pipeline.SendEmailReply`). A reply whose JSON is `null`, or whose members are not strings, is not modelled on the page side.
- A request body whose JSON is not an object gives a field map without the looked-up keys. A JSON `null` body throws while destructuring, which is folded into `Unreadable`.
- `Js.NotAFunction`: the `TypeError` message for calling `trim` on a non-string follows V8's wording. The runtime's exact text is outside the source.
- A `NonText` prompt is interpolated through its template-literal rendering `shown`, which is an input rather than computed: the rendered text, or `None` when the rendering throws.
- JavaScript strings are UTF-16 code units. Dafny's `char` is a Unicode scalar value, so lone surrogates are not representable.
- `FileReader` is asynchronous, and so is the `await` between the click and the reply. Each action is one atomic step, so interleavings are not modelled: a double click on Send issuing two requests, typing while a request is outstanding, or a file read finishing after other actions.
- `alert` is recorded as an alert text, and rendering, CSS and icons are left out. Resetting the file input (`e.target.value = ""`) is also left out because it holds no state the model keeps.
- `app/layout.tsx` is left out because it holds only static metadata and markup. The `runtime` and `dynamic` exports are route configuration, so they are left out too.
- Page.Step: the contract states only that a settled page stays settled. What each step does is stated by the members it delegates to (`LoadFile`, `Generate`, `Send`, `Clear`).

=== FILE: js.dfy ===
/** The fragment of JavaScript value semantics the handlers and the page rely on:
    optional values, thrown values and `catch` messages, JSON fields after
    destructuring and their truthiness, `String.prototype.trim`, and the decimal
    rendering of a number inside a template literal.
 */
module Js {

  datatype Option<+T> = None | Some(value: T) {
    /** `x ?? default` for a value that is either present or null/undefined. */
    function GetOr(default: T): T {
      match this
      case Some(v) => v
      case None => default
    }
  }

  /** A thrown value: an `Error` (or subclass) carries its `message`; anything else does not. */
  datatype Thrown = ErrorObject(message: string) | NonError

  /** What a `catch (err)` block reports: `err instanceof Error ? err.message : fallback`.
      An `Error` whose message is empty still reports the empty message. */
  function MessageOr(t: Thrown, fallback: string): string {
    match t
    case ErrorObject(m) => m
    case NonError => fallback
  }

  /** The message of the `TypeError` the runtime throws when `callee(...)` is called
      but `callee` is not a function (V8's wording). */
  function NotAFunction(callee: string): string {
    callee + " is not a function"
  }

  /** The message of the `TypeError` thrown when an object is rendered into a
      template literal but neither its `toString` nor its `valueOf` yields a
      primitive, as for a JSON object with a `toString` member (V8's wording). */
  const CannotConvert := "Cannot convert object to primitive value"

  /** One field of a parsed JSON request body after destructuring.
      `Absent` is a missing key or `null` (both behave alike under `!x` and `x?.`);
      `NonText` is a number, boolean, object or array, with its JavaScript
      falsiness and its template-literal rendering `shown`, which is `None` when
      the rendering throws the `CannotConvert` error. */
  datatype Field = Absent | Text(s: string) | NonText(falsy: bool, shown: Option<string>)

  /** `!!x` for a field. */
  predicate Truthy(f: Field) {
    match f
    case Absent => false
    case Text(s) => s != ""
    case NonText(falsy, _) => !falsy
  }

  /** Look up a key of a parsed JSON object; a missing key is `undefined`. */
  function Lookup(fields: map<string, Field>, key: string): Field {
    if key in fields then fields[key] else Absent
  }

  /** The code points `String.prototype.trim` removes: ECMAScript's WhiteSpace
      (TAB, VT, FF, ZWNBSP and the Unicode category Zs) and LineTerminator
      (LF, CR, LS, PS). */
  const WhiteSpace: set<char> := {
    '\t', '\n', '\U{000B}', '\U{000C}', '\r', ' ', '\U{00A0}', '\U{1680}',
    '\U{2000}', '\U{2001}', '\U{2002}', '\U{2003}', '\U{2004}', '\U{2005}',
    '\U{2006}', '\U{2007}', '\U{2008}', '\U{2009}', '\U{200A}',
    '\U{2028}', '\U{2029}', '\U{202F}', '\U{205F}', '\U{3000}', '\U{FEFF}'
  }

  predicate IsWs(c: char) {
    c in WhiteSpace
  }

  /** Position `k` of `s` exists and holds white space. */
  predicate WsAt(s: string, k: int) {
    0 <= k < |s| && IsWs(s[k])
  }

  predicate AllWs(s: string) {
    forall k :: 0 <= k < |s| ==> IsWs(s[k])
  }

  /** Drops leading white space: the result is a suffix of `s`, everything dropped
      is white space, and the result does not start with white space. */
  function TrimStart(s: string): (r: string)
    ensures |r| <= |s| && r == s[|s| - |r|..]
    ensures forall k :: 0 <= k < |s| - |r| ==> IsWs(s[k])
    ensures r != [] ==> !IsWs(r[0])
    decreases |s|
  {
    if s != [] && IsWs(s[0]) then TrimStart(s[1..]) else s
  }

  /** Drops trailing white space: the result is a prefix of `s`, everything dropped
      is white space, and the result does not end with white space. */
  function TrimEnd(s: string): (r: string)
    ensures |r| <= |s| && r == s[..|r|]
    ensures forall k :: |r| <= k < |s| ==> IsWs(s[k])
    ensures r != [] ==> !IsWs(r[|r| - 1])
    decreases |s|
  {
    if s != [] && IsWs(s[|s| - 1]) then TrimEnd(s[..|s| - 1]) else s
  }

  /** `r` is `s` with the white space at both ends removed, `r` starting at offset `i` of `s`:
      white space, then `r` (neither starting nor ending with white space), then white space. */
  predicate IsTrimAt(s: string, i: nat, r: string) {
    && i + |r| <= |s|
    && r == s[i..i + |r|]
    && (forall k :: 0 <= k < i ==> IsWs(s[k]))
    && (forall k :: i + |r| <= k < |s| ==> IsWs(s[k]))
    && (r != [] ==> !IsWs(s[i]) && !IsWs(s[i + |r| - 1]))
  }

  /** `s.trim()`. */
  function Trim(s: string): (r: string)
    ensures IsTrimAt(s, |s| - |TrimStart(s)|, r)
  {
    TrimStartThenEnd(s);
    TrimEnd(TrimStart(s))
  }

  /** Trimming the end of what `TrimStart` leaves splits `s` as `IsTrimAt` describes. */
  lemma TrimStartThenEnd(s: string)
    ensures IsTrimAt(s, |s| - |TrimStart(s)|, TrimEnd(TrimStart(s)))
  {
    var t := TrimStart(s);
    SuffixThenPrefix(s, t, TrimEnd(t));
  }

  /** A white-space-free-at-its-start suffix `t` of `s` after white space, then a
      white-space-free-at-its-end prefix `r` of `t` before white space, is a trim split. */
  lemma SuffixThenPrefix(s: string, t: string, r: string)
    requires |t| <= |s| && t == s[|s| - |t|..]
    requires forall k :: 0 <= k < |s| - |t| ==> IsWs(s[k])
    requires t != [] ==> !IsWs(t[0])
    requires |r| <= |t| && r == t[..|r|]
    requires forall k :: |r| <= k < |t| ==> IsWs(t[k])
    requires r != [] ==> !IsWs(r[|r| - 1])
    ensures IsTrimAt(s, |s| - |t|, r)
  {
    var i := |s| - |t|;
    assert r == s[i..i + |r|];
    forall k | i + |r| <= k < |s|
      ensures IsWs(s[k])
    {
      assert s[k] == t[k - i];
    }
    if r != [] {
      assert s[i] == t[0] == r[0];
      assert s[i + |r| - 1] == r[|r| - 1];
    }
  }

  /** `!s.trim()`: the string is empty or consists of white space only
      (`BlankIffTrimEmpty` shows this is exactly `Trim(s) == []`). */
  predicate IsBlank(s: string) {
    AllWs(s)
  }

  /** A trimmed part is empty exactly when the whole string is white space. */
  lemma TrimAtEmptyIff(s: string, i: nat, r: string)
    requires IsTrimAt(s, i, r)
    ensures r == [] <==> AllWs(s)
  {
    assert r != [] && AllWs(s) ==> WsAt(s, i);
  }

  /** Trimming has exactly one possible answer: any split of `s` into white space,
      a part that neither starts nor ends with white space, and white space, has
      `Trim(s)` as its middle part. */
  lemma TrimUnique(s: string, i: nat, r: string)
    requires IsTrimAt(s, i, r)
    ensures r == Trim(s)
  {
    var j := |s| - |TrimStart(s)|;
    var t := Trim(s);
    TrimAtEmptyIff(s, i, r);
    TrimAtEmptyIff(s, j, t);
    if r != [] {
      // both start at the first character that is not white space ...
      assert i < j ==> WsAt(s, i);
      assert j < i ==> WsAt(s, j);
      assert i == j;
      // ... and end after the last one
      assert i + |r| < j + |t| ==> WsAt(s, j + |t| - 1);
      assert j + |t| < i + |r| ==> WsAt(s, i + |r| - 1);
      assert |r| == |t|;
    }
  }

  /** Trimming leaves nothing exactly when every character is white space. */
  lemma BlankIffTrimEmpty(s: string)
    ensures Trim(s) == [] <==> IsBlank(s)
  {
    TrimAtEmptyIff(s, |s| - |TrimStart(s)|, Trim(s));
  }

  /** Trimming twice is trimming once. */
  lemma TrimIdempotent(s: string)
    ensures Trim(Trim(s)) == Trim(s)
  {
    var r := Trim(s);
    assert r[0..|r|] == r;
    TrimUnique(r, 0, r);
  }

  /** The trimming loop of a JavaScript engine: scan from both ends for the first
      and last character that is not white space. */
  method TrimBounds(s: string) returns (start: nat, end: nat)
    ensures start <= end <= |s|
    ensures s[start..end] == Trim(s)
    ensures forall k :: 0 <= k < start ==> IsWs(s[k])
    ensures forall k :: end <= k < |s| ==> IsWs(s[k])
  {
    start := 0;
    while start < |s| && IsWs(s[start])
      invariant start <= |s|
      invariant forall k :: 0 <= k < start ==> IsWs(s[k])
    {
      start := start + 1;
    }
    end := |s|;
    while end > start && IsWs(s[end - 1])
      invariant start <= end <= |s|
      invariant forall k :: end <= k < |s| ==> IsWs(s[k])
    {
      end := end - 1;
    }
    var r := s[start..end];
    assert |r| == end - start;
    assert r != [] ==> s[start] == r[0] && s[end - 1] == r[|r| - 1];
    assert IsTrimAt(s, start, r);
    TrimUnique(s, start, r);
  }

  /** The decimal digits of `n`, as `${n}` renders a non-negative integer. */
  function DecimalString(n: nat): (r: string)
    ensures r != []
    ensures forall k :: 0 <= k < |r| ==> '0' <= r[k] <= '9'
    ensures n > 0 ==> r[0] != '0'
  {
    if n < 10 then [DigitChar(n)] else DecimalString(n / 10) + [DigitChar(n % 10)]
  }

  function DigitChar(d: nat): (c: char)
    requires d < 10
  {
    (48 + d) as char
  }

  /** The number a string of decimal digits denotes. */
  function DecimalValue(r: string): nat
    requires forall k :: 0 <= k < |r| ==> '0' <= r[k] <= '9'
  {
    if r == [] then 0 else 10 * DecimalValue(r[..|r| - 1]) + ((r[|r| - 1] as int) - 48)
  }

  /** Reading back the rendered digits gives the number. */
  lemma {:induction false} DecimalRoundTrip(n: nat)
    ensures DecimalValue(DecimalString(n)) == n
  {
    var r := DecimalString(n);
    if n >= 10 {
      DecimalRoundTrip(n / 10);
      assert r[..|r| - 1] == DecimalString(n / 10);
    }
  }
}

=== FILE: page.dfy ===
/** The client page as a state machine. Each user action is one atomic step; a
    network round trip is a step whose server reply is an input. A step yields the
    next state, the requests it sent and the alerts it showed.
 */
module Page {
  import opened Js

  const InitialPrompt := "Summarize in concise bullet points focusing on decisions, owners, and deadlines."
  const PlainText := "text/plain"
  const WrongFileType := "Please upload a .txt file."
  const ReadFailed := "Failed to read the file."
  const SummarizeFallback := "Failed to summarize"
  const SendFallback := "Failed to send email"
  const EmailSent := "Email sent."
  const RequestFailedPrefix := "Request failed: "

  datatype State = State(transcript: string, customPrompt: string, summary: string,
                         emailTo: string, loading: bool)

  const Initial := State("", InitialPrompt, "", "", false)

  datatype Endpoint = SummarizeEndpoint | SendEmailEndpoint
  /** A `fetch` POST with a JSON object body. */
  datatype Request = Request(endpoint: Endpoint, body: map<string, Field>)

  /** The JSON a reply carries, as the page reads it: not JSON at all, or an object
      whose `error` and `summary` members are strings or absent. */
  datatype ReplyBody = NotJson(thrown: Thrown) | Json(error: Option<string>, summary: Option<string>)
  /** What `await fetch(...)` gives: a rejection, or a response with a status and body. */
  datatype Reply = FetchFailed(thrown: Thrown) | Http(status: nat, body: ReplyBody)

  /** `res.ok`. */
  predicate IsOk(status: nat) {
    200 <= status <= 299
  }

  datatype ReadResult = Loaded(text: string) | ReadError
  /** The first picked file: its MIME type (empty when the browser does not know
      it) and what reading it as text gives. */
  datatype PickedFile = PickedFile(mimeType: string, read: ReadResult)

  datatype Outcome = Outcome(state: State, requests: seq<Request>, alerts: seq<string>)

  /** Generate is enabled: `disabled={loading || !transcript.trim()}` is false. */
  predicate GenerateEnabled(s: State) {
    !s.loading && !IsBlank(s.transcript)
  }

  /** Send is enabled: `disabled={!summary.trim() || !emailTo.trim()}` is false. */
  predicate SendEnabled(s: State) {
    !IsBlank(s.summary) && !IsBlank(s.emailTo)
  }

  /** `onFileChange`: no file does nothing; a file with a non-empty type other than
      `text/plain` is refused; otherwise the file's text replaces the transcript, or
      a read error is reported. Nothing else in the state changes. */
  function LoadFile(s: State, file: Option<PickedFile>): (o: Outcome)
    ensures o.requests == []
    ensures o.state.(transcript := s.transcript) == s
    ensures file.None? ==> o == Outcome(s, [], [])
    ensures (file.Some? && file.value.mimeType != "" && file.value.mimeType != PlainText)
              ==> o == Outcome(s, [], [WrongFileType])
    ensures (file.Some? && (file.value.mimeType == "" || file.value.mimeType == PlainText)
             && file.value.read.Loaded?)
              ==> o == Outcome(s.(transcript := file.value.read.text), [], [])
    ensures (file.Some? && (file.value.mimeType == "" || file.value.mimeType == PlainText)
             && file.value.read.ReadError?)
              ==> o == Outcome(s, [], [ReadFailed])
    ensures o.state.transcript != s.transcript ==>
              file.Some? && (file.value.mimeType == "" || file.value.mimeType == PlainText)
              && file.value.read == Loaded(o.state.transcript)
  {
    match file
    case None => Outcome(s, [], [])
    case Some(f) =>
      if f.mimeType != "" && f.mimeType != PlainText then Outcome(s, [], [WrongFileType])
      else
        match f.read
        case Loaded(text) => Outcome(s.(transcript := text), [], [])
        case ReadError => Outcome(s, [], [ReadFailed])
  }

  /** The request `generateSummary` sends: `{ transcript, prompt: customPrompt }`. */
  function SummarizeRequest(s: State): Request {
    Request(SummarizeEndpoint, map["transcript" := Text(s.transcript), "prompt" := Text(s.customPrompt)])
  }

  /** The request `sendEmail` sends: `{ recipient: emailTo, summary }`. */
  function SendEmailRequest(s: State): Request {
    Request(SendEmailEndpoint, map["recipient" := Text(s.emailTo), "summary" := Text(s.summary)])
  }

  /** The fields of the page's requests read back as the page's state. */
  lemma RequestFields(s: State)
    ensures Lookup(SummarizeRequest(s).body, "transcript") == Text(s.transcript)
    ensures Lookup(SummarizeRequest(s).body, "prompt") == Text(s.customPrompt)
    ensures Lookup(SendEmailRequest(s).body, "recipient") == Text(s.emailTo)
    ensures Lookup(SendEmailRequest(s).body, "summary") == Text(s.summary)
  {
  }

  /** The message of the `Error` thrown for a reply that is not ok:
      `err?.error || \`Request failed: ${res.status}\``, where a body that is not
      JSON counts as `{}`. */
  function NotOkMessage(status: nat, body: ReplyBody): (m: string)
    ensures m != ""
  {
    if body.Json? && body.error.Some? && body.error.value != "" then body.error.value
    else RequestFailedPrefix + DecimalString(status)
  }

  /** The state while a summary request is outstanding. */
  function InFlight(s: State): State {
    s.(loading := true, summary := "")
  }

  /** The end of `generateSummary` once the reply is in: store the summary on
      success, alert on any failure, and clear `loading` in every case. */
  function SettleGenerate(s: State, reply: Reply): (o: Outcome)
    ensures !o.state.loading
    ensures o.requests == []
    ensures o.state.(loading := s.loading, summary := s.summary) == s
  {
    match reply
    case FetchFailed(thrown) =>
      Outcome(s.(loading := false), [], [MessageOr(thrown, SummarizeFallback)])
    case Http(status, body) =>
      if !IsOk(status) then Outcome(s.(loading := false), [], [NotOkMessage(status, body)])
      else
        match body
        case NotJson(thrown) => Outcome(s.(loading := false), [], [MessageOr(thrown, SummarizeFallback)])
        case Json(_, summary) => Outcome(s.(loading := false, summary := summary.GetOr("")), [], [])
  }

  /** `generateSummary`, from the click to the settled state. */
  function Generate(s: State, reply: Reply): (o: Outcome)
    ensures IsBlank(s.transcript) ==> o == Outcome(s, [], [])
    ensures !IsBlank(s.transcript) ==> o.requests == [SummarizeRequest(s)] && !o.state.loading
    ensures o.state.(summary := s.summary, loading := s.loading) == s
    ensures (!IsBlank(s.transcript) && reply.Http? && IsOk(reply.status) && reply.body.Json?)
              ==> o.state.summary == reply.body.summary.GetOr("") && o.alerts == []
    ensures (!IsBlank(s.transcript) && !(reply.Http? && IsOk(reply.status) && reply.body.Json?))
              ==> o.state.summary == "" && |o.alerts| == 1
    ensures (!IsBlank(s.transcript) && reply.FetchFailed?)
              ==> o.alerts == [MessageOr(reply.thrown, SummarizeFallback)]
    ensures (!IsBlank(s.transcript) && reply.Http? && IsOk(reply.status) && reply.body.NotJson?)
              ==> o.alerts == [MessageOr(reply.body.thrown, SummarizeFallback)]
  {
    if IsBlank(s.transcript) then Outcome(s, [], [])
    else
      var settled := SettleGenerate(InFlight(s), reply);
      Outcome(settled.state, [SummarizeRequest(s)], settled.alerts)
  }

  /** `sendEmail`: nothing unless both the summary and the recipient are non-blank;
      otherwise one request and one alert. The state never changes. */
  function Send(s: State, reply: Reply): (o: Outcome)
    ensures o.state == s
    ensures IsBlank(s.summary) || IsBlank(s.emailTo) ==> o.requests == [] && o.alerts == []
    ensures !IsBlank(s.summary) && !IsBlank(s.emailTo) ==> o.requests == [SendEmailRequest(s)] && |o.alerts| == 1
    ensures (!IsBlank(s.summary) && !IsBlank(s.emailTo) && reply.Http?)
              ==> o.alerts == [if IsOk(reply.status) then EmailSent else NotOkMessage(reply.status, reply.body)]
    ensures (!IsBlank(s.summary) && !IsBlank(s.emailTo) && reply.FetchFailed?)
              ==> o.alerts == [MessageOr(reply.thrown, SendFallback)]
  {
    if IsBlank(s.summary) || IsBlank(s.emailTo) then Outcome(s, [], [])
    else
      var alert :=
        match reply
        case FetchFailed(thrown) => MessageOr(thrown, SendFallback)
        case Http(status, body) => if IsOk(status) then EmailSent else NotOkMessage(status, body);
      Outcome(s, [SendEmailRequest(s)], [alert])
  }

  /** The Clear button. */
  function Clear(s: State): (o: State)
    ensures o.transcript == "" && o.summary == ""
    ensures o.customPrompt == s.customPrompt && o.emailTo == s.emailTo && o.loading == s.loading
  {
    s.(transcript := "", summary := "")
  }

  datatype Action =
    | EditTranscript(text: string)
    | EditPrompt(text: string)
    | EditSummary(text: string)
    | EditRecipient(text: string)
    | PickFile(file: Option<PickedFile>)
    | ClickGenerate(reply: Reply)
    | ClickSend(reply: Reply)
    | ClickClear

  /** One user action. The text fields' `onChange` handlers store what was typed. */
  function Step(s: State, a: Action): (o: Outcome)
    ensures !s.loading ==> !o.state.loading
  {
    match a
    case EditTranscript(t) => Outcome(s.(transcript := t), [], [])
    case EditPrompt(p) => Outcome(s.(customPrompt := p), [], [])
    case EditSummary(t) => Outcome(s.(summary := t), [], [])
    case EditRecipient(e) => Outcome(s.(emailTo := e), [], [])
    case PickFile(file) => LoadFile(s, file)
    case ClickGenerate(reply) => Generate(s, reply)
    case ClickSend(reply) => Send(s, reply)
    case ClickClear => Outcome(Clear(s), [], [])
  }

  /** The state after a sequence of actions. */
  function Run(s: State, actions: seq<Action>): State
    decreases |actions|
  {
    if actions == [] then s else Run(Step(s, actions[0]).state, actions[1..])
  }

  /** Between steps the page is never loading: every generate step ends with
      `loading` cleared, so from a settled state `loading` is false after any
      sequence of actions. This rests on each action being one atomic step, so
      `loading` is only ever true inside `Generate`; the induction carries
      `Step`'s contract along the actions. */
  lemma {:induction false} NeverLoadingBetweenSteps(s: State, actions: seq<Action>)
    requires !s.loading
    ensures !Run(s, actions).loading
    decreases |actions|
  {
    if actions != [] {
      NeverLoadingBetweenSteps(Step(s, actions[0]).state, actions[1..]);
    }
  }

  /** The page starts with both buttons disabled, and whatever the user does from
      there, it is never left loading between actions. */
  lemma SettledFromInitial(actions: seq<Action>)
    ensures !GenerateEnabled(Initial) && !SendEnabled(Initial)
    ensures !Run(Initial, actions).loading
  {
    NeverLoadingBetweenSteps(Initial, actions);
  }

  /** While a summary request is outstanding the Generate button is disabled; this
      follows from the definitions of `InFlight` and `GenerateEnabled`. */
  lemma InFlightDisablesGenerate(s: State)
    ensures !GenerateEnabled(InFlight(s))
    ensures InFlight(s).summary == ""
  {
  }

  /** An enabled Generate button sends exactly one request; in a settled state a
      disabled one sends none. */
  lemma GenerateButtonMatchesGuard(s: State, reply: Reply)
    requires !s.loading
    ensures GenerateEnabled(s) <==> Generate(s, reply).requests == [SummarizeRequest(s)]
    ensures !GenerateEnabled(s) ==> Generate(s, reply) == Outcome(s, [], [])
  {
  }

  /** The Send button is enabled exactly when clicking it sends a request. */
  lemma SendButtonMatchesGuard(s: State, reply: Reply)
    ensures SendEnabled(s) <==> Send(s, reply).requests != []
  {
  }

  /** A status rendered into the failure message is read back as that status. */
  lemma {:induction false} StatusInFailureMessage(status: nat)
    ensures var m := NotOkMessage(status, Json(None, None));
            && m[..|RequestFailedPrefix|] == RequestFailedPrefix
            && DecimalValue(m[|RequestFailedPrefix|..]) == status
  {
    var m := NotOkMessage(status, Json(None, None));
    assert m[|RequestFailedPrefix|..] == DecimalString(status);
    DecimalRoundTrip(status);
  }

  /** An enabled send answered with any ok status ends in "Email sent.", whatever the body. */
  lemma OkReplyConfirmed(s: State, status: nat, body: ReplyBody)
    requires SendEnabled(s) && IsOk(status)
    ensures Send(s, Http(status, body)).alerts == [EmailSent]
  {
  }

  /** A failed generate shows the server's `error` when it is a non-empty string,
      and `Request failed: <status>` otherwise. */
  lemma FailureMessageShown(s: State, status: nat, body: ReplyBody)
    requires !IsBlank(s.transcript) && !IsOk(status)
    ensures body.Json? && body.error.Some? && body.error.value != "" ==>
              Generate(s, Http(status, body)).alerts == [body.error.value]
    ensures !(body.Json? && body.error.Some? && body.error.value != "") ==>
              Generate(s, Http(status, body)).alerts == [RequestFailedPrefix + DecimalString(status)]
  {
  }
}

=== FILE: pipeline.dfy ===
/** The page and the two handlers together: what the page sends is what the
    handlers accept, and what the handlers answer is what the page shows or stores.
    The JSON encoding between them is modelled as a direct mapping of fields.
 */
module Pipeline {
  import opened Js
  import opened Server
  import Page
  import SummarizeRoute
  import SendEmailRoute

  /** The summarize handler's response as the page receives it. */
  function SummarizeReply(resp: Response<string>): Page.Reply {
    match resp
    case Success(summary) => Page.Http(200, Page.Json(None, Some(summary)))
    case Failure(status, error) => Page.Http(status, Page.Json(Some(error), None))
  }

  /** The send-email handler's response (`{ ok: true }` or `{ error }`) as the page receives it. */
  function SendEmailReply(resp: Response<()>): Page.Reply {
    match resp
    case Success(_) => Page.Http(200, Page.Json(None, None))
    case Failure(status, error) => Page.Http(status, Page.Json(Some(error), None))
  }

  /** What the summarize handler does with a request the page sends: one chat
      request for the page's instruction and transcript, answered from the completion. */
  lemma SummarizePageRequest(env: Env, s: Page.State, completion: SummarizeRoute.Completion)
    requires Configured(env.openAiKey)
    requires !IsBlank(s.transcript)
    ensures var x := SummarizeRoute.Handle(env, Fields(Page.SummarizeRequest(s).body), completion);
            && x.requests == [SummarizeRoute.ChatRequestFor(SummarizeRoute.Instruction(Text(s.customPrompt)).value, s.transcript)]
            && (completion.Threw? ==> x.response == Failure(500, MessageOr(completion.thrown, SummarizeRoute.Fallback)))
            && (completion.Completed? ==> x.response == Success(SummarizeRoute.FirstChoiceSummary(completion.choices)))
  {
    Page.RequestFields(s);
  }

  /** The page's own guard is the handler's: a summarize request the page sends
      (its transcript is not blank) is never refused as blank, and the handler then
      makes one chat request quoting the page's transcript as it stands, after the
      page's custom instruction (or the default one when that field is empty). */
  lemma PageSummarizeRequestAccepted(env: Env, s: Page.State, completion: SummarizeRoute.Completion)
    requires Configured(env.openAiKey)
    requires !IsBlank(s.transcript)
    ensures var x := SummarizeRoute.Handle(env, Fields(Page.SummarizeRequest(s).body), completion);
            var instruction := if s.customPrompt != "" then s.customPrompt else SummarizeRoute.DefaultInstruction;
            && |x.requests| == 1
            && (x.response.Failure? ==> x.response.status == 500)
            && SummarizeRoute.QuotedTranscript(x.requests[0].messages[1].content, instruction) == Some(s.transcript)
  {
    SummarizePageRequest(env, s, completion);
    var instruction := if s.customPrompt != "" then s.customPrompt else SummarizeRoute.DefaultInstruction;
    assert SummarizeRoute.Instruction(Text(s.customPrompt)) == Some(instruction);
    SummarizeRoute.QuotedTranscriptIff(SummarizeRoute.UserMessage(instruction, s.transcript), instruction, s.transcript);
  }

  /** A send request the page makes (the Send button is enabled) is never refused
      as blank, and the handler emails the page's summary, unchanged, to the page's
      recipient, unchanged. */
  lemma PageSendRequestDelivered(env: Env, s: Page.State, delivery: SendEmailRoute.Delivery)
    requires Configured(env.resendKey) && Configured(env.emailFrom)
    requires Page.SendEnabled(s)
    ensures var x := SendEmailRoute.Handle(env, Fields(Page.SendEmailRequest(s).body), delivery);
            && x.sends == [SendEmailRoute.Email(env.emailFrom.value, s.emailTo, SendEmailRoute.Subject, s.summary)]
            && (delivery.Resolved? ==> Page.Send(s, SendEmailReply(x.response)).alerts == [Page.EmailSent])
  {
    Page.RequestFields(s);
    var x := SendEmailRoute.Handle(env, Fields(Page.SendEmailRequest(s).body), delivery);
    assert SendEmailRoute.Sendable(Page.SendEmailRequest(s).body);
    if delivery.Resolved? {
      assert SendEmailReply(x.response) == Page.Http(200, Page.Json(None, None));
      Page.OkReplyConfirmed(s, 200, Page.Json(None, None));
    }
  }

  /** A successful summarize reply is stored in the page as it came. */
  lemma SuccessStored(s: Page.State, summary: string)
    requires !IsBlank(s.transcript)
    ensures Page.Generate(s, SummarizeReply(Success(summary))).state == s.(summary := summary, loading := false)
  {
  }

  /** The summary the summarize handler returns, once stored by the page and sent
      without edits, is the email body character for character. */
  lemma SummaryReachesEmailBody(env: Env, s: Page.State, choices: seq<SummarizeRoute.Choice>,
                                delivery: SendEmailRoute.Delivery)
    requires Configured(env.openAiKey) && Configured(env.resendKey) && Configured(env.emailFrom)
    requires !IsBlank(s.transcript) && !IsBlank(s.emailTo)
    requires choices != [] && choices[0].content.Some? && !IsBlank(choices[0].content.value)
    ensures var resp := SummarizeRoute.Handle(env, Fields(Page.SummarizeRequest(s).body),
                                              SummarizeRoute.Completed(choices)).response;
            var s1 := Page.Generate(s, SummarizeReply(resp)).state;
            && resp.Success?
            && s1.summary == resp.value
            && SendEmailRoute.Handle(env, Fields(Page.SendEmailRequest(s1).body), delivery).sends
               == [SendEmailRoute.Email(env.emailFrom.value, s.emailTo, SendEmailRoute.Subject, resp.value)]
  {
    var summary := SummarizeRoute.FirstChoiceSummary(choices);
    assert summary != [] && !IsWs(summary[0]);
    SummarizePageRequest(env, s, SummarizeRoute.Completed(choices));
    SuccessStored(s, summary);
    PageSendRequestDelivered(env, s.(summary := summary, loading := false), delivery);
  }

  /** A server-side refusal reaches the user as the handler's own message: with the
      key missing, the page alerts "OPENAI_API_KEY not configured" and is left
      with an empty summary and not loading. */
  lemma MissingKeyShownToUser(env: Env, s: Page.State, completion: SummarizeRoute.Completion)
    requires !Configured(env.openAiKey)
    requires !IsBlank(s.transcript)
    ensures var o := Page.Generate(s, SummarizeReply(
                       SummarizeRoute.Handle(env, Fields(Page.SummarizeRequest(s).body), completion).response));
            && o.alerts == [SummarizeRoute.KeyMissing]
            && o.state.summary == ""
            && !o.state.loading
  {
    assert SummarizeRoute.Handle(env, Fields(Page.SummarizeRequest(s).body), completion).response
           == Failure(500, SummarizeRoute.KeyMissing);
    Page.FailureMessageShown(s, 500, Page.Json(Some(SummarizeRoute.KeyMissing), None));
  }

  /** A provider error with an empty message is answered `{ error: "" }` with
      status 500, and the page, finding the error falsy, shows "Request failed: "
      followed by the status, 500. */
  lemma EmptyProviderMessageShownAsStatus(env: Env, s: Page.State)
    requires Configured(env.openAiKey)
    requires !IsBlank(s.transcript)
    ensures var o := Page.Generate(s, SummarizeReply(
                       SummarizeRoute.Handle(env, Fields(Page.SummarizeRequest(s).body),
                                             SummarizeRoute.Threw(ErrorObject(""))).response));
            o.alerts == [Page.NotOkMessage(500, Page.Json(None, None))]
  {
    SummarizePageRequest(env, s, SummarizeRoute.Threw(ErrorObject("")));
  }
}

=== FILE: send_email_route.dfy ===
/** The `POST /api/send-email` handler: parse the body, check the Resend key and the
    sender address, check the recipient and the summary, send one plain-text email.
    The mail service is not modelled; its outcome is a parameter and the email the
    handler would send is recorded in the result.
 */
module SendEmailRoute {
  import opened Js
  import opened Server

  const ConfigMissing := "RESEND_API_KEY or EMAIL_FROM not configured"
  const FieldsRequired := "recipient and summary are required"
  const Fallback := "Failed to send email"
  const Subject := "AI-Generated Meeting Summary"

  /** The payload of `resend.emails.send`. */
  datatype Email = Email(from: string, to: string, subject: string, text: string)

  /** What `resend.emails.send` does: resolve (possibly with an error the service
      reports in its result), or throw. */
  datatype Delivery = Resolved(reportedError: Option<string>) | Threw(thrown: Thrown)

  /** The emails the handler sent (in order) and its response; success is `{ ok: true }`. */
  datatype Exchange = Exchange(sends: seq<Email>, response: Response<()>)

  /** `!!(x?.trim())` evaluated on a field, or the `TypeError` it throws. */
  datatype Presence = Present(value: string) | Missing | Throws(message: string)

  /** `x?.trim()` short-circuits on null or undefined only: any other non-string
      value, falsy or not, has no `trim` and throws. The value kept is the field as
      given, not its trimmed form. */
  function Required(f: Field, callee: string): (p: Presence)
    ensures p.Present? <==> f.Text? && !IsBlank(f.s)
    ensures p.Present? ==> p.value == f.s
    ensures p.Throws? <==> f.NonText?
    ensures p.Throws? ==> p.message == NotAFunction(callee)
  {
    match f
    case Absent => Missing
    case Text(s) => if IsBlank(s) then Missing else Present(s)
    case NonText(_, _) => Throws(NotAFunction(callee))
  }

  /** Both fields are non-blank strings. */
  predicate Sendable(fields: map<string, Field>) {
    && Lookup(fields, "recipient").Text? && !IsBlank(Lookup(fields, "recipient").s)
    && Lookup(fields, "summary").Text? && !IsBlank(Lookup(fields, "summary").s)
  }

  /** The handler. The body is parsed first, then the configuration is checked, then
      the recipient and the summary (in that order); only then is one email sent. */
  function Handle(env: Env, body: Body, delivery: Delivery): (x: Exchange)
    ensures WellFormed(x.response)
    ensures body.Unreadable? ==> x == Exchange([], Failure(500, MessageOr(body.thrown, Fallback)))
    ensures (body.Fields? && (!Configured(env.resendKey) || !Configured(env.emailFrom)))
              ==> x == Exchange([], Failure(500, ConfigMissing))
    ensures x.sends != [] <==>
              body.Fields? && Configured(env.resendKey) && Configured(env.emailFrom) && Sendable(body.fields)
    ensures x.sends != [] ==>
              x.sends == [Email(env.emailFrom.value, Lookup(body.fields, "recipient").s, Subject,
                                Lookup(body.fields, "summary").s)]
    ensures (&& body.Fields? && Configured(env.resendKey) && Configured(env.emailFrom)
             && Lookup(body.fields, "recipient").NonText?)
              ==> x == Exchange([], Failure(500, NotAFunction("recipient?.trim")))
    ensures (&& body.Fields? && Configured(env.resendKey) && Configured(env.emailFrom)
             && Lookup(body.fields, "recipient").Text? && !IsBlank(Lookup(body.fields, "recipient").s)
             && Lookup(body.fields, "summary").NonText?)
              ==> x == Exchange([], Failure(500, NotAFunction("summary?.trim")))
    ensures x.response.Success? <==> x.sends != [] && delivery.Resolved?
    ensures x.sends != [] && delivery.Threw? ==> x.response == Failure(500, MessageOr(delivery.thrown, Fallback))
    ensures x.response.Failure? && x.response.status == 400 ==> x.sends == []
  {
    match body
    case Unreadable(thrown) => Exchange([], Failure(500, MessageOr(thrown, Fallback)))
    case Fields(fields) =>
      if !Configured(env.resendKey) || !Configured(env.emailFrom) then
        Exchange([], Failure(500, ConfigMissing))
      else
        match Required(Lookup(fields, "recipient"), "recipient?.trim")
        case Throws(message) => Exchange([], Failure(500, message))
        case Missing => Exchange([], Failure(400, FieldsRequired))
        case Present(to) =>
          match Required(Lookup(fields, "summary"), "summary?.trim")
          case Throws(message) => Exchange([], Failure(500, message))
          case Missing => Exchange([], Failure(400, FieldsRequired))
          case Present(text) =>
            var email := Email(env.emailFrom.value, to, Subject, text);
            match delivery
            case Threw(thrown) => Exchange([email], Failure(500, MessageOr(thrown, Fallback)))
            case Resolved(_) => Exchange([email], Success(()))
  }

  /** With the configuration present, a missing or white-space-only recipient is a
      client error whatever the summary (`||` never reaches `summary?.trim()`), and
      so is a non-blank recipient with a missing or white-space-only summary;
      nothing is sent. */
  lemma BlankFieldRejected(env: Env, fields: map<string, Field>, delivery: Delivery)
    requires Configured(env.resendKey) && Configured(env.emailFrom)
    requires || Lookup(fields, "recipient") == Absent
             || (Lookup(fields, "recipient").Text? && IsBlank(Lookup(fields, "recipient").s))
             || (&& Lookup(fields, "recipient").Text? && !IsBlank(Lookup(fields, "recipient").s)
                 && (|| Lookup(fields, "summary") == Absent
                     || (Lookup(fields, "summary").Text? && IsBlank(Lookup(fields, "summary").s))))
    ensures Handle(env, Fields(fields), delivery) == Exchange([], Failure(400, FieldsRequired))
  {
  }

  /** A missing configuration is reported before the body's fields are looked at. */
  lemma ConfigCheckedBeforeFields(env: Env, f1: map<string, Field>, f2: map<string, Field>,
                                  d1: Delivery, d2: Delivery)
    requires !Configured(env.resendKey) || !Configured(env.emailFrom)
    ensures Handle(env, Fields(f1), d1) == Handle(env, Fields(f2), d2)
  {
  }

  /** The result of a send that does not throw is never inspected: once the email
      goes out, the handler answers `{ ok: true }` even when the service reports an error. */
  lemma ReportedErrorIgnored(env: Env, body: Body, reported: Option<string>)
    requires body.Fields? && Configured(env.resendKey) && Configured(env.emailFrom) && Sendable(body.fields)
    ensures Handle(env, body, Resolved(reported)) == Handle(env, body, Resolved(None))
    ensures Handle(env, body, Resolved(reported)).response == Success(())
  {
  }
}

=== FILE: server.dfy ===
/** What the two route handlers share: the process environment they read at request
    time, the request body they parse, and the JSON response they produce.
 */
module Server {
  import opened Js

  /** The environment variables the handlers read; `None` is an unset variable. */
  datatype Env = Env(openAiKey: Option<string>, resendKey: Option<string>, emailFrom: Option<string>)

  /** `!!process.env.X`: set and not the empty string. */
  predicate Configured(v: Option<string>) {
    v.Some? && v.value != ""
  }

  /** The outcome of `await req.json()` followed by destructuring: either it threw
      (the body is not JSON, or it is JSON `null`), or it gave an object's fields. */
  datatype Body = Unreadable(thrown: Thrown) | Fields(fields: map<string, Field>)

  /** A handler's reply: the success payload with status 200, or `{ error }` with a status. */
  datatype Response<+T> = Success(value: T) | Failure(status: nat, error: string)

  /** The shape both handlers promise: success, or an error with status 400 or 500. */
  predicate WellFormed<T>(r: Response<T>) {
    r.Failure? ==> r.status == 400 || r.status == 500
  }
}

=== FILE: summarize_route.dfy ===
/** The `POST /api/summarize` handler: parse the body, check the OpenAI key, check the
    transcript, make one chat-completion request and answer with its trimmed first
    choice. The completion service is not modelled; its outcome is a parameter and
    the request the handler would make is recorded in the result.
 */
module SummarizeRoute {
  import opened Js
  import opened Server

  const KeyMissing := "OPENAI_API_KEY not configured"
  const TranscriptRequired := "Transcript is required"
  const Fallback := "Failed to summarize"

  /** Fixed request settings, recorded as given (the temperature 0.3 in tenths). */
  const ModelName := "gpt-4o-mini"
  const TemperatureTenths: nat := 3
  const MaxTokens: nat := 700

  const SystemInstruction :=
    "You are a concise assistant that produces structured, business-ready meeting summaries."
  const DefaultInstruction := "Summarize in clear bullet points."
  /** What comes between the instruction and the transcript, and after the transcript. */
  const TranscriptOpen := "\n\nTranscript:\n\"\"\""
  const TranscriptClose := "\"\"\"\n\n"
  const OutputRequest :=
    "Provide:\n- Key decisions\n- Action items (owner, due date)\n- Risks/blocks\n- Next steps"
  const AfterTranscript := TranscriptClose + OutputRequest

  datatype Role = SystemRole | UserRole
  datatype Message = Message(role: Role, content: string)
  datatype ChatRequest = ChatRequest(model: string, temperatureTenths: nat, maxTokens: nat, messages: seq<Message>)

  /** One returned choice; `None` is a choice without a message or with null content. */
  datatype Choice = Choice(content: Option<string>)
  /** What `client.chat.completions.create` does: resolve with choices, or throw. */
  datatype Completion = Completed(choices: seq<Choice>) | Threw(thrown: Thrown)

  /** The requests the handler made (in order) and its response. */
  datatype Exchange = Exchange(requests: seq<ChatRequest>, response: Response<string>)

  /** The transcript field is a non-blank string: the only input that gets past
      `!transcript || !transcript.trim()` without an error. */
  predicate Submittable(f: Field) {
    f.Text? && !IsBlank(f.s)
  }

  /** `${prompt || "Summarize in clear bullet points."}`: the prompt when it is
      truthy, the default otherwise; `None` when rendering a truthy prompt throws. */
  function Instruction(prompt: Field): Option<string> {
    match prompt
    case Absent => Some(DefaultInstruction)
    case Text(p) => if p != "" then Some(p) else Some(DefaultInstruction)
    case NonText(falsy, shown) => if falsy then Some(DefaultInstruction) else shown
  }

  /** The body gets the handler as far as calling the completion service: it was
      read, the key is set, the transcript passes and the instruction renders. */
  predicate Requests(env: Env, body: Body) {
    && body.Fields?
    && Configured(env.openAiKey)
    && Submittable(Lookup(body.fields, "transcript"))
    && Instruction(Lookup(body.fields, "prompt")).Some?
  }

  /** The user message: instruction, the transcript between triple quotes, the
      four-part output request. */
  function UserMessage(instruction: string, transcript: string): string {
    instruction + TranscriptOpen + transcript + AfterTranscript
  }

  /** Reads the quoted transcript back out of a user message, given its instruction. */
  function QuotedTranscript(message: string, instruction: string): Option<string> {
    var head := instruction + TranscriptOpen;
    var tail := AfterTranscript;
    if |head| + |tail| <= |message| && message[..|head|] == head && message[|message| - |tail|..] == tail
    then Some(message[|head|..|message| - |tail|])
    else None
  }

  /** The request made for a valid body: system message, then user message. */
  function ChatRequestFor(instruction: string, transcript: string): ChatRequest {
    ChatRequest(ModelName, TemperatureTenths, MaxTokens,
      [Message(SystemRole, SystemInstruction), Message(UserRole, UserMessage(instruction, transcript))])
  }

  /** The outcome of the transcript check on a readable body. */
  datatype Check = Accept(transcript: string) | Reject(status: nat, error: string)

  /** `if (!transcript || !transcript.trim())`: a falsy value is rejected before
      `.trim()` is called; a truthy non-string has no `trim` and throws. */
  function CheckTranscript(f: Field): (c: Check)
    ensures c.Accept? <==> Submittable(f)
    ensures c.Accept? ==> c.transcript == f.s
    ensures c.Reject? && c.status == 400 <==> !Truthy(f) || (f.Text? && IsBlank(f.s))
    ensures c.Reject? ==> c.status == 400 || c.status == 500
    ensures c.Reject? && c.status == 500 ==> c.error == NotAFunction("transcript.trim")
  {
    match f
    case Absent => Reject(400, TranscriptRequired)
    case Text(s) =>
      if s == "" || IsBlank(s) then Reject(400, TranscriptRequired) else Accept(s)
    case NonText(falsy, _) =>
      if falsy then Reject(400, TranscriptRequired)
      else Reject(500, NotAFunction("transcript.trim"))
  }

  /** `completion.choices[0]?.message?.content?.trim() ?? ""`: the summary is empty
      exactly when there is no first choice, it has no content, or the content is
      blank; otherwise it neither starts nor ends with white space. */
  function FirstChoiceSummary(choices: seq<Choice>): (s: string)
    ensures s == "" <==> choices == [] || choices[0].content.None? || IsBlank(choices[0].content.value)
    ensures s != "" ==> !IsWs(s[0]) && !IsWs(s[|s| - 1])
    ensures choices != [] && choices[0].content.Some? ==> s == Trim(choices[0].content.value)
  {
    if choices != [] && choices[0].content.Some? then
      BlankIffTrimEmpty(choices[0].content.value);
      Trim(choices[0].content.value)
    else ""
  }

  /** The handler. The body is parsed first, then the key is checked, then the
      transcript; only then is the completion service called, exactly once. */
  function Handle(env: Env, body: Body, completion: Completion): (x: Exchange)
    ensures WellFormed(x.response)
    ensures body.Unreadable? ==> x == Exchange([], Failure(500, MessageOr(body.thrown, Fallback)))
    ensures body.Fields? && !Configured(env.openAiKey) ==> x == Exchange([], Failure(500, KeyMissing))
    ensures (body.Fields? && Configured(env.openAiKey) && !Truthy(Lookup(body.fields, "transcript")))
              ==> x == Exchange([], Failure(400, TranscriptRequired))
    ensures (&& body.Fields? && Configured(env.openAiKey)
             && Lookup(body.fields, "transcript").NonText? && !Lookup(body.fields, "transcript").falsy)
              ==> x == Exchange([], Failure(500, NotAFunction("transcript.trim")))
    ensures (&& body.Fields? && Configured(env.openAiKey) && Submittable(Lookup(body.fields, "transcript"))
             && Instruction(Lookup(body.fields, "prompt")).None?)
              ==> x == Exchange([], Failure(500, CannotConvert))
    ensures x.requests != [] <==> Requests(env, body)
    ensures x.requests != [] ==>
              x.requests == [ChatRequestFor(Instruction(Lookup(body.fields, "prompt")).value,
                                            Lookup(body.fields, "transcript").s)]
    ensures x.requests != [] && completion.Threw? ==>
              x.response == Failure(500, MessageOr(completion.thrown, Fallback))
    ensures x.requests != [] && completion.Completed? ==>
              x.response == Success(FirstChoiceSummary(completion.choices))
    ensures x.response.Success? ==> |x.requests| == 1 && completion.Completed?
    ensures x.response.Failure? && x.response.status == 400 ==> x.requests == []
  {
    match body
    case Unreadable(thrown) => Exchange([], Failure(500, MessageOr(thrown, Fallback)))
    case Fields(fields) =>
      if !Configured(env.openAiKey) then Exchange([], Failure(500, KeyMissing))
      else
        match CheckTranscript(Lookup(fields, "transcript"))
        case Reject(status, error) => Exchange([], Failure(status, error))
        case Accept(transcript) =>
          match Instruction(Lookup(fields, "prompt"))
          case None => Exchange([], Failure(500, CannotConvert))
          case Some(instruction) =>
            var request := ChatRequestFor(instruction, transcript);
            match completion
            case Threw(thrown) => Exchange([request], Failure(500, MessageOr(thrown, Fallback)))
            case Completed(choices) => Exchange([request], Success(FirstChoiceSummary(choices)))
  }

  /** The quoted transcript is recovered from the user message exactly, and a user
      message is determined by its instruction and transcript. */
  lemma QuotedTranscriptIff(message: string, instruction: string, transcript: string)
    ensures QuotedTranscript(message, instruction) == Some(transcript)
            <==> message == UserMessage(instruction, transcript)
  {
    Unwrap(message, instruction + TranscriptOpen, transcript, AfterTranscript);
  }

  /** A string is `head + x + tail` exactly when it starts with `head`, ends with
      `tail`, and holds `x` in between. */
  lemma Unwrap(m: string, head: string, x: string, tail: string)
    ensures (&& |head| + |tail| <= |m|
             && m[..|head|] == head
             && m[|m| - |tail|..] == tail
             && m[|head|..|m| - |tail|] == x)
            <==> m == head + x + tail
  {
    if m == head + x + tail {
      assert m[..|head|] == head;
      assert m[|m| - |tail|..] == tail;
      assert m[|head|..|m| - |tail|] == x;
    }
    if |head| + |tail| <= |m| {
      assert m == m[..|head|] + m[|head|..|m| - |tail|] + m[|m| - |tail|..];
    }
  }

  /** Any request the handler makes carries the transcript verbatim, untrimmed,
      between the triple-quote markers, in a system-then-user message pair. */
  lemma RequestCarriesTranscript(env: Env, body: Body, completion: Completion)
    requires Requests(env, body)
    ensures var r := Handle(env, body, completion).requests[0];
            && |r.messages| == 2
            && r.messages[0] == Message(SystemRole, SystemInstruction)
            && r.messages[1].role == UserRole
            && QuotedTranscript(r.messages[1].content, Instruction(Lookup(body.fields, "prompt")).value)
               == Some(Lookup(body.fields, "transcript").s)
  {
    var r := Handle(env, body, completion).requests[0];
    QuotedTranscriptIff(r.messages[1].content, Instruction(Lookup(body.fields, "prompt")).value,
                        Lookup(body.fields, "transcript").s);
  }

  /** The user message starts with its instruction. */
  lemma UserMessageStartsWithInstruction(instruction: string, transcript: string)
    ensures |instruction| <= |UserMessage(instruction, transcript)|
    ensures UserMessage(instruction, transcript)[..|instruction|] == instruction
  {
    StartsWithFirst(instruction, TranscriptOpen, transcript, AfterTranscript);
  }

  lemma StartsWithFirst(a: string, b: string, c: string, d: string)
    ensures |a| <= |a + b + c + d|
    ensures (a + b + c + d)[..|a|] == a
  {
    assert a + b + c + d == a + (b + c + d);
  }

  /** A missing, null, empty or otherwise falsy prompt falls back to the default
      instruction; a non-empty string prompt is used as it is; any other truthy
      prompt is used as rendered, and when it cannot be rendered nothing is requested. */
  lemma InstructionChoice(env: Env, body: Body, completion: Completion)
    requires body.Fields? && Configured(env.openAiKey) && Submittable(Lookup(body.fields, "transcript"))
    ensures var x := Handle(env, body, completion);
            var prompt := Lookup(body.fields, "prompt");
            var transcript := Lookup(body.fields, "transcript").s;
            && (!Truthy(prompt) ==>
                  |x.requests| == 1 && x.requests[0].messages[1].content == UserMessage(DefaultInstruction, transcript))
            && (prompt.Text? && prompt.s != "" ==>
                  |x.requests| == 1 && x.requests[0].messages[1].content == UserMessage(prompt.s, transcript))
            && (prompt.NonText? && !prompt.falsy ==> (x.requests != [] <==> prompt.shown.Some?))
            && (prompt.NonText? && !prompt.falsy && prompt.shown.Some? ==>
                  |x.requests| == 1 && x.requests[0].messages[1].content == UserMessage(prompt.shown.value, transcript))
  {
  }

  /** When the key is missing, the answer does not depend on the transcript, the
      prompt or the completion service. */
  lemma KeyCheckedBeforeTranscript(env: Env, f1: map<string, Field>, f2: map<string, Field>,
                                   c1: Completion, c2: Completion)
    requires !Configured(env.openAiKey)
    ensures Handle(env, Fields(f1), c1) == Handle(env, Fields(f2), c2)
  {
  }

  /** With the key present, a blank transcript is a client error no matter what
      prompt comes with it or what the completion service would have said. */
  lemma BlankTranscriptRejected(env: Env, fields: map<string, Field>, completion: Completion)
    requires Configured(env.openAiKey)
    requires Lookup(fields, "transcript") == Absent
             || (Lookup(fields, "transcript").Text? && IsBlank(Lookup(fields, "transcript").s))
    ensures Handle(env, Fields(fields), completion) == Exchange([], Failure(400, TranscriptRequired))
  {
  }

  /** A completed request always answers 200: the trimmed first choice, or the empty
      string when there is no choice or no content. */
  lemma CompletedIsSuccess(env: Env, body: Body, choices: seq<Choice>)
    requires Requests(env, body)
    ensures var resp := Handle(env, body, Completed(choices)).response;
            && resp.Success?
            && resp.value == Trim(resp.value)
            && (choices == [] || choices[0].content.None? ==> resp.value == "")
            && (choices != [] && choices[0].content.Some? ==> resp.value == Trim(choices[0].content.value))
  {
    var resp := Handle(env, body, Completed(choices)).response;
    if choices != [] && choices[0].content.Some? {
      TrimIdempotent(choices[0].content.value);
    }
  }

  /** The triple quotes do not delimit unambiguously: a transcript that itself
      contains the opening marker yields the same user message as a different
      instruction with a shorter transcript. */
  lemma DelimiterCanBeForged(instruction: string, a: string, b: string)
    ensures UserMessage(instruction, a + TranscriptOpen + b)
            == UserMessage(instruction + TranscriptOpen + a, b)
  {
    Regroup(instruction, TranscriptOpen, a, b, AfterTranscript);
  }

  lemma Regroup(p: string, o: string, a: string, b: string, c: string)
    ensures p + o + (a + o + b) + c == (p + o + a) + o + b + c
  {
  }
}
